=== FILE: README.md ===
# Olist e-commerce assistant: router and ingestion, modelled in Dafny

The system answers shopping questions about the Olist product catalogue.
A request goes through `router_agent`, which tries three strategies in a
fixed order and returns the first answer obtained:

1. `sql_agent` — only for queries whose lower-cased text contains one of the
   keywords `harga`, `price`, `seller`, `kota`, `lokasi`; it reads rows from
   the local SQLite database and lists them under a fixed header;
2. `rag_agent` — embeds the query, retrieves the three nearest documents from
   the `olist_products` Qdrant collection, and asks the chat model to answer
   from their text;
3. `llm_fallback` — asks the chat model directly, or, without an OpenAI key,
   answers a fixed "not available" message.

Two ingestion scripts fill the Qdrant collection: they drop CSV rows without a
product id or category, fill the other missing cells with defaults, keep the
first `MAX_ROWS` rows (300 or 100), build one labelled text document per row
(the cloud script cuts the review to 500 characters), embed it, and upsert the
points in batches of `BATCH_SIZE` (25 or 20) with a final flush of the rest.

The model treats every third-party call as an oracle. A `World` value says
whether the database file exists, what the SELECT returns, and what the
embedding, search and chat endpoints answer for each request; `Outcome.Raised`
stands for an exception. Each agent returns its answer together with the
requests it issued, so "no model call without a key" or "the database is only
read for keyword queries" can be stated. The start-up environment becomes a
`Config` of two flags (OpenAI and Qdrant clients present) and the optional
chat model name.

Three behaviours of the code worth knowing:

- The fallback's completion call (main.py:180-187) is outside any `try`, so
  an exception from it reaches the caller of `router_agent`;
  `Router.RouterAgent` returns `Raised` in exactly that case
  (`Router.NeverNone`).
- `get_db` opens the connection (main.py:70, called at main.py:90) before the
  `try` of `sql_agent`, so a failing connect would not be caught; the model
  does not model a failing connect (see "Left out").
- The context join (main.py:141-143) skips hits whose payload is missing or
  empty and uses `""` for a payload without `text`; a non-string `text`
  makes the join raise, which the agent turns into no answer.

Files:

- `wrappers.dfy` — `Option` and `Outcome`.
- `text.dfy` — ASCII lower-casing, substring occurrence, `str.join`, line
  splitting and slicing, with the lemmas linking them.
- `collaborators.dfy` — requests, payloads, rows, the `World` oracle and the
  model constants.
- `classifier.dfy` — the keyword gate of `sql_agent`.
- `agents.dfy` — `sql_agent`, `embed_text`, `rag_agent`, `llm_fallback`.
- `router.dfy` — `router_agent` and the properties of the whole chain.
- `cleaning.dfy` — `dropna`, `fillna` and `head`.
- `document.dfy` — the per-row document and its parser, proved inverse.
- `batching.dfy` — the batched upload loop.
- `ingest.dfy` — points and the two scripts' complete runs.

## Model

| member | source | states |
|---|---|---|
| Classifier.IsStructuredCandidate | main.py:85-88 | A query is a structured candidate exactly when one of the five keywords is a substring of its lower-cased text |
| Classifier.AnyOccurs | main.py:87 | `any(k in q ...)` is true exactly when some keyword of the list occurs in `q` |
| Classifier.EmptyQueryIsNotCandidate | main.py:85-88 | The empty query is never sent to the database |
| Classifier.CaseInsensitive | main.py:85-88 | Two queries equal up to case are classified alike |
| Classifier.LowerDoesNotMatter | main.py:85 | Lower-casing the query beforehand changes nothing |
| Classifier.KeywordInAnyCase | main.py:85-88 | A keyword written in any mix of cases makes the query a candidate |
| Agents.SqlAgent | main.py:84-118 | An answer exactly when the gate passes, the file exists, the SELECT does not raise and returns rows; the answer is tagged SQL-Agent; the SELECT is issued only after gate and file check, and errors never escape |
| Agents.SqlAnswer | main.py:107-109 | The answer text after the loop; `Agents.SqlAnswerTerminated` characterises it |
| Agents.RowLine | main.py:109 | The line written for one row; `Agents.SqlAnswerTerminated` characterises its place in the answer |
| Agents.SqlAnswerTerminated | main.py:107-109 | For all rows, the answer is the header followed by one product line per row in row order, each ending in a newline |
| Agents.SqlAnswerLines | main.py:107-114 | The SQL answer splits into the header, one product line per row (id, price, seller city) in row order, and nothing after the final newline, when no value spans a line |
| Agents.EmbedText | main.py:72-79 | No vector and no request without an OpenAI client; otherwise exactly one embedding request for the text |
| Agents.ContextOf | main.py:141-143 | The newline-join of the context texts; `Agents.ContextPartsSingle` and `Agents.ContextPartsAppend` characterise them |
| Agents.ContextParts | main.py:141-143 | The join succeeds exactly when every hit with a non-empty payload has a string `text` (default "") |
| Agents.ContextPartsSingle | main.py:141-143 | A hit without a payload contributes nothing, a hit with a string (or absent) `text` contributes exactly that text, and a non-string `text` fails the join |
| Agents.ContextPartsAppend | main.py:141-143 | The texts of `a + b` are the texts of `a` followed by those of `b`, so the context lists the payload hits' texts in hit order and nothing else |
| Agents.ContextHoldsEveryText | main.py:141-143 | Every hit with a payload contributes its text verbatim to the context |
| Agents.ContextOfSingleHit | main.py:141-143 | One retrieved document gives exactly its text as the context |
| Agents.RagPrompt | main.py:145-153 | The prompt contains both the context and the original query |
| Agents.RagAgent | main.py:123-168 | No answer and no request when either client is missing; an answer is tagged RAG-Agent, follows exactly one embedding of the query, one top-3 search with the vector that embedding returned and that returned hits, and one user-role completion whose prompt is built from those hits' context and the query, and is that completion's reply; whether or not it answers, it sends at most the embedding, then the search with the embedded vector, then a completion only after a search that returned joinable hits |
| Agents.RagDeclines | main.py:127-168 | A raising embedding call, a raising or empty search, an unjoinable hit text, or a raising completion call give no answer |
| Agents.RetrievedTextInPrompt | main.py:141-159 | When the RAG agent answers, the prompt it sent holds the text of every retrieved hit with a payload |
| Agents.LlmFallback | main.py:173-192 | Never "no answer": without a key, the fixed message tagged System and no request; with a key, exactly one completion request (model `ChatModel(cfg)`, system persona plus raw query, temperature 0.3), its reply tagged LLM-Fallback, and an exception from it escapes |
| Agents.LabelInjective | main.py:113 | The four `source` strings (main.py:113, 163, 177, 191) are pairwise distinct, so the string identifies the agent |
| Collaborators.ChatModel | main.py:156 | The chat model is `OPENAI_CHAT_MODEL` when set and `gpt-4o-mini` otherwise, for both the RAG and the fallback calls (main.py:181) |
| Router.RouterAgent | main.py:197-206 | The strategies tried are a non-empty prefix of SQL, RAG, fallback; an answer's source belongs to the last strategy tried; an exception means all three were tried with a key present; the requests sent are exactly the SQL agent's, then the RAG agent's only if it was tried, then the fallback's only if it was tried |
| Router.FirstSuccessWins | main.py:197-206 | The SQL answer if any, else the RAG answer if any, else the fallback's outcome; a later agent sends requests only when every earlier one declined |
| Router.NoStrategyTwice | main.py:197-206 | No strategy is tried twice: the requests sent hold at most one database read, one embedding and one search |
| Router.TraceSlots | main.py:197-206 | A database read can only be the first request, the embedding only follows the SQL agent's requests, and the search only follows the embedding |
| Router.NeverNone | main.py:197-206 | The router never answers "nothing"; it raises exactly when SQL and RAG declined, a key is set and the fallback's completion raised |
| Router.SourceIdentifiesStrategy | main.py:197-206 | The source tag identifies the strategy that answered, in both directions |
| Router.NoModelCallsWithoutKey | main.py:123-192 | Without an OpenAI key only the database is ever consulted |
| Router.DbOnlyForStructuredQueries | main.py:84-92 | The database is read at most once, first, and only for a keyword query with the file present |
| Router.KeywordQueryWithRowsUsesSql | main.py:197-200 | A keyword query against a database returning rows gets the SQL answer |
| Router.HargaScenario | main.py:84-114 | "berapa harga produk ini?" with one row gets the header and the row line from the SQL agent |
| Router.RetrievalWhenSqlDeclines | main.py:202-204 | With SQL declining and retrieval working, the RAG reply is returned and its completion is the last request |
| Router.ElektronikScenario | main.py:123-164 | "apakah produk ini bagus?" passes no keyword; the retrieved "Kategori: elektronik" reaches the prompt and the answer is RAG-Agent's |
| Router.NothingConfigured | main.py:173-178 | Without an OpenAI key and without the database file, every query, the empty one included, gets the unavailability message from System, whatever the Qdrant flag and chat model |
| Cleaning.Fill | ingest_olist_to_qdrant.py:45-49 | Missing city and state become "unknown", price and score 0, review ""; present values are kept |
| Cleaning.Clean | ingest_olist_to_qdrant.py:43-49 | The surviving rows are exactly the kept rows filled in, each once, in their CSV order, carrying their CSV position |
| Cleaning.CleanFromComplete | ingest_cloud.py:44 | No row with a product id and category is dropped |
| Cleaning.Head | ingest_olist_to_qdrant.py:58 | `head(n)` is a prefix of length `min(n, rows)` |
| Document.BuildDocument | ingest_olist_to_qdrant.py:67-75 | The f-string document; `Document.ParseBuild` and `Document.BuildParse` characterise it |
| Document.ParseBuild | ingest_olist_to_qdrant.py:67-75 | The document reads back, line by line, as the seven labelled fields in fixed order, when no value spans a line |
| Document.BuildParse | ingest_cloud.py:69-77 | Every text the parser accepts is exactly the document of the fields it returns |
| Batching.Upload | ingest_olist_to_qdrant.py:63-117 | The upserted batches concatenate to the points in order; `uploaded` equals the number of points; loop flushes hold exactly `BATCH_SIZE` points and the final flush the non-empty remainder |
| Text.Lower | main.py:85 | `query.lower()` keeps the length and lower-cases each character (ASCII letters only) |
| Text.Contains | main.py:87 | `k in q` is true exactly when `k` occurs in `q` at some position |
| Text.Join | main.py:141 | `"\n".join(parts)`; `Text.JoinContainsPart` shows every part occurs in the joined text |
| Text.JoinContainsPart | main.py:141 | Every part occurs verbatim in the joined text |
| Text.Truncate | ingest_cloud.py:67 | `[:n]` is a prefix of length `min(n, len)`: the whole text when short enough, exactly `n` characters otherwise |
| Ingest.ReviewText | ingest_cloud.py:67 | The review shown is a prefix of the review: in the cloud script exactly its first 500 characters when longer, the whole review otherwise; in the other script always the whole review |
| Ingest.PointOf | ingest_olist_to_qdrant.py:77-92 | The point's id is the row's index, `payload.text` is the row's document and the vector is the embedding of exactly that text; the payload has exactly the five keys, with category, seller city, price and score taken from the row |
| Ingest.PointTextParses | ingest_cloud.py:69-88 | The stored text parses back to the row's fields, when no value spans a line |
| Ingest.IngestedTextRoundTrip | ingest_olist_to_qdrant.py:86 | An ingested point retrieved alone gives the RAG agent its document as the context |
| Ingest.ProcessedRows | ingest_cloud.py:58 | The processed rows are a prefix of the cleaned rows, at most `MAX_ROWS` of them, and all of them when fewer |
| Ingest.Ingest | ingest_cloud.py:63-113 | A full run uploads every processed row once, in order, as its point; `uploaded` equals the number of processed rows; batch sizes as in the loop |
| Ingest.IngestOlist | ingest_olist_to_qdrant.py:54-117 | At most 300 rows, batches of 25 the last one non-empty and at most 25, points built from the cleaned rows in order with full reviews |
| Ingest.IngestCloud | ingest_cloud.py:55-113 | At most 100 rows, batches of 20 the last one non-empty and at most 20, reviews cut to exactly their first 500 characters when longer |

## Left out

- The FastAPI application, CORS middleware, request model and endpoints (main.py:22-29, 61-62, 211-217): framework wiring.
- Loading `.env` and building the clients (main.py:4-54): reduced to the flags of `Config`; `OPENAI_CHAT_MODEL` is `Config.chatModel`.
- create_qdrant_collection.py is not part of this model: it only calls the vendor to recreate the collection.
- Embedding vectors, cosine similarity and ranking: the search endpoint is an oracle, so the `limit=3` is a field of the request and the number of hits it returns is not bounded by the model.
- The `LIMIT 5` SELECT: the returned rows are an oracle value, and their columns arrive already rendered as text.
- Python's `str()` of the price and score cells in the documents is a parameter `Render` with one function per column, since pandas may read either column as float (`5.0`) or integer (`5`); `float()` of the payload values is the identity on reals.
- pandas CSV reading and column selection: the model starts from rows of the seven columns with missing cells as `None`.
- `time.sleep` between batches and every `print`.
- An exception from the embedding or upsert call aborts an ingestion script; the model's endpoints always answer there.
- `sqlite3.connect` runs outside the `try` of `sql_agent` (main.py:70), so a failing connect would escape; the model treats connect as succeeding whenever the file exists.
- A chat reply whose `content` is `None` is not modelled: replies are strings.
- Text.Lower: lower-cases ASCII letters only, where Python's `str.lower` covers all of Unicode; the keywords are ASCII, but a non-ASCII capital that lowers to an ASCII letter is classified differently.
- Classifier.IsStructuredCandidate: inherits the ASCII-only lower-casing of `Text.Lower`.
- Batching.Upload: requires `BATCH_SIZE > 0`, which both scripts' constants satisfy.
- Agents.SqlAnswerLines: holds only when no row's rendered id, price or seller city holds a line break, since such a value adds a piece to the split; `Agents.SqlAnswerTerminated` holds for all rows.
- Document.ParseBuild: holds only for values without a line break, because a review containing one makes the document ambiguous.
- Ingest.PointTextParses: inherits the single-line condition of `Document.ParseBuild`.

=== FILE: agents.dfy ===
/** The three answering strategies of main.py: `sql_agent`, `rag_agent` and
    `llm_fallback`. Each is a pure function of the query, the start-up
    configuration and the collaborators' behaviour, and reports the requests
    it issued alongside its answer. */
module Agents {
  import opened Wrappers
  import opened Text
  import opened Collaborators
  import opened Classifier

  /** Which agent produced an answer, shown to the caller as `source`. */
  datatype Source = FromSql | FromRag | FromLlm | FromSystem {
    function Label(): string {
      match this
      case FromSql => "SQL-Agent"
      case FromRag => "RAG-Agent"
      case FromLlm => "LLM-Fallback"
      case FromSystem => "System"
    }
  }

  /** The `source` strings are pairwise distinct, so the string shown to the
      caller identifies the agent. */
  lemma LabelInjective(a: Source, b: Source)
    ensures a.Label() == b.Label() <==> a == b
  {
  }

  /** The `{"answer": ..., "source": ...}` record every agent returns. */
  datatype AnswerResult = AnswerResult(answer: string, source: Source)

  // ---------------------------------------------------------------------
  // SQL agent
  // ---------------------------------------------------------------------

  /** The first line of every SQL answer (the leading emoji is U+1F4CA). */
  const SqlHeader: string := "\U{1F4CA} Data produk dari database:"

  /** The line written for one database row. */
  function RowLine(row: SqlRow): string {
    "- Produk " + row.productId + " | Harga " + row.price + " | Kota seller " + row.sellerCity
  }

  function RowLines(rows: seq<SqlRow>): (ls: seq<string>)
    ensures |ls| == |rows|
    ensures forall i :: 0 <= i < |rows| ==> ls[i] == RowLine(rows[i])
  {
    seq(|rows|, i requires 0 <= i < |rows| => RowLine(rows[i]))
  }

  /** The answer text after the loop has appended one line per row:
      `answer = header + "\n"`, then `answer += line + "\n"` for each row. */
  function SqlAnswer(rows: seq<SqlRow>): string {
    if |rows| == 0 then SqlHeader + "\n"
    else SqlAnswer(rows[..|rows| - 1]) + RowLine(rows[|rows| - 1]) + "\n"
  }

  /** `sql_agent`: no answer unless the query passes the keyword gate, the
      database file exists, the SELECT does not raise and returns a row. */
  function SqlAgent(query: string, world: World): (r: Run<Option<AnswerResult>>)
    ensures r.value.Some? <==>
      IsStructuredCandidate(query) && world.dbFileExists
      && world.dbRows.Returned? && |world.dbRows.value| > 0
    ensures r.value.Some? ==> r.value.value == AnswerResult(SqlAnswer(world.dbRows.value), FromSql)
    ensures r.trace == (if IsStructuredCandidate(query) && world.dbFileExists then [DbSelect] else [])
  {
    if !IsStructuredCandidate(query) then Run(None, [])
    else if !world.dbFileExists then Run(None, [])
    else
      match world.dbRows
      case Raised => Run(None, [DbSelect])
      case Returned(rows) =>
        if |rows| == 0 then Run(None, [DbSelect])
        else Run(Some(AnswerResult(SqlAnswer(rows), FromSql)), [DbSelect])
  }

  /** A row whose rendered columns hold no line break. */
  predicate SingleLineRow(row: SqlRow) {
    '\n' !in row.productId && '\n' !in row.price && '\n' !in row.sellerCity
  }

  lemma RowLineSingle(row: SqlRow)
    requires SingleLineRow(row)
    ensures '\n' !in RowLine(row)
  {
    assert '\n' !in "- Produk ";
    assert '\n' !in " | Harga ";
    assert '\n' !in " | Kota seller ";
  }

  lemma {:induction false} SqlAnswerTerminated(rows: seq<SqlRow>)
    ensures SqlAnswer(rows) == Terminated([SqlHeader] + RowLines(rows), '\n')
  {
    if |rows| == 0 {
      assert [SqlHeader] + RowLines(rows) == [SqlHeader];
    } else {
      var init := rows[..|rows| - 1];
      SqlAnswerTerminated(init);
      TerminatedSnoc([SqlHeader] + RowLines(init), RowLine(rows[|rows| - 1]), '\n');
      assert [SqlHeader] + RowLines(rows) == [SqlHeader] + RowLines(init) + [RowLine(rows[|rows| - 1])];
    }
  }

  /** The SQL answer reads, line by line, as the header followed by exactly
      one line per row in row order (and nothing after the final newline). */
  lemma SqlAnswerLines(rows: seq<SqlRow>)
    requires forall i :: 0 <= i < |rows| ==> SingleLineRow(rows[i])
    ensures Split(SqlAnswer(rows), '\n') == [SqlHeader] + RowLines(rows) + [""]
  {
    SqlAnswerTerminated(rows);
    AnswerLinesSingle(rows);
    SplitTerminated([SqlHeader] + RowLines(rows), '\n');
  }

  lemma AnswerLinesSingle(rows: seq<SqlRow>)
    requires forall i :: 0 <= i < |rows| ==> SingleLineRow(rows[i])
    ensures forall i :: 0 <= i < |rows| + 1 ==> '\n' !in ([SqlHeader] + RowLines(rows))[i]
  {
    var lines := [SqlHeader] + RowLines(rows);
    forall i | 0 <= i < |lines|
      ensures '\n' !in lines[i]
    {
      if i == 0 {
        assert '\n' !in SqlHeader;
      } else {
        assert lines[i] == RowLine(rows[i - 1]);
        RowLineSingle(rows[i - 1]);
      }
    }
  }

  // ---------------------------------------------------------------------
  // RAG agent
  // ---------------------------------------------------------------------

  /** `embed_text`: no vector without an OpenAI client, otherwise whatever
      the embedding endpoint answers for this text. */
  function EmbedText(cfg: Config, world: World, text: string): (r: Run<Option<Outcome<Vector>>>)
    ensures r.value.None? <==> !cfg.openai
    ensures r.value.Some? ==> r.trace == [Embedding(EmbeddingModel, text)]
    ensures r.value.Some? ==> r.value.value == world.embed(Embedding(EmbeddingModel, text))
    ensures r.value.None? ==> r.trace == []
  {
    if !cfg.openai then Run(None, [])
    else
      var req := Embedding(EmbeddingModel, text);
      Run(Some(world.embed(req)), [req])
  }

  /** A hit counts towards the context only when it has a non-empty payload. */
  predicate HasPayload(h: Hit) {
    h.payload.Some? && |h.payload.value| > 0
  }

  /** `payload.get("text", "")`. */
  function TextField(p: Payload): PayloadValue {
    if "text" in p then p["text"] else Str("")
  }

  /** The `text` of every hit with a payload, in hit order; no list when some
      such `text` is not a string, where `str.join` raises `TypeError`. */
  function ContextParts(hits: seq<Hit>): (r: Option<seq<string>>)
    ensures r.Some? <==> forall i :: 0 <= i < |hits| && HasPayload(hits[i]) ==> TextField(hits[i].payload.value).Str?
  {
    if |hits| == 0 then Some([])
    else
      var rest := ContextParts(hits[1..]);
      assert forall i :: 1 <= i < |hits| ==> hits[i] == hits[1..][i - 1];
      if !HasPayload(hits[0]) then rest
      else
        match TextField(hits[0].payload.value)
        case Num(_) => None
        case Str(t) => if rest.Some? then Some([t] + rest.value) else None
  }

  /** The context block: the hits' texts joined by newlines. */
  function ContextOf(hits: seq<Hit>): Option<string> {
    match ContextParts(hits)
    case Some(parts) => Some(Join("\n", parts))
    case None => None
  }

  const PromptHead: string := "\nGunakan konteks berikut untuk menjawab pertanyaan pengguna.\n\nKonteks:\n"
  const PromptQuestion: string := "\n\nPertanyaan:\n"

  /** The user prompt sent by `rag_agent`. */
  function RagPrompt(context: string, query: string): (p: string)
    ensures Occurs(context, p) && Occurs(query, p)
  {
    OccursIn(PromptHead, context, PromptQuestion + query + "\n");
    assert PromptHead + context + (PromptQuestion + query + "\n")
        == PromptHead + context + PromptQuestion + query + "\n";
    OccursIn(PromptHead + context + PromptQuestion, query, "\n");
    PromptHead + context + PromptQuestion + query + "\n"
  }

  const Temperature: real := 0.3

  function RagCompletion(cfg: Config, prompt: string): Request {
    ChatCompletion(ChatModel(cfg), [Message("user", prompt)], Temperature)
  }

  /** `rag_agent`: needs both clients; embeds the query, searches the top 3,
      builds a prompt from the hits' texts and asks the chat endpoint.
      A missing vector, an empty hit list or any exception gives no answer. */
  function RagAgent(query: string, cfg: Config, world: World): (r: Run<Option<AnswerResult>>)
    ensures !cfg.qdrant || !cfg.openai ==> r.value.None? && r.trace == []
    ensures r.value.Some? ==>
      && r.value.value.source == FromRag
      && |r.trace| == 3
      && r.trace[0] == Embedding(EmbeddingModel, query)
      && r.trace[1].Search? && r.trace[1].collection == CollectionName && r.trace[1].limit == 3
      && world.embed(r.trace[0]) == Returned(r.trace[1].vector)
      && world.search(r.trace[1]).Returned? && |world.search(r.trace[1]).value| > 0
      && ContextOf(world.search(r.trace[1]).value).Some?
      && r.trace[2] == RagCompletion(cfg, RagPrompt(ContextOf(world.search(r.trace[1]).value).value, query))
      && world.complete(r.trace[2]) == Returned(r.value.value.answer)
    ensures |r.trace| <= 3
    ensures |r.trace| > 0 ==> r.trace[0] == Embedding(EmbeddingModel, query)
    ensures |r.trace| > 1 ==>
      && r.trace[1].Search? && r.trace[1].collection == CollectionName && r.trace[1].limit == 3
      && world.embed(r.trace[0]) == Returned(r.trace[1].vector)
    ensures forall i :: 0 <= i < |r.trace| && r.trace[i].ChatCompletion? ==>
      && i == 2 && r.trace[1].Search?
      && world.search(r.trace[1]).Returned? && |world.search(r.trace[1]).value| > 0
      && ContextOf(world.search(r.trace[1]).value).Some?
      && r.trace[2] == RagCompletion(cfg, RagPrompt(ContextOf(world.search(r.trace[1]).value).value, query))
  {
    if !cfg.qdrant || !cfg.openai then Run(None, [])
    else
      var e := EmbedText(cfg, world, query);
      match e.value
      case None => Run(None, e.trace)
      case Some(Raised) => Run(None, e.trace)
      case Some(Returned(vector)) =>
        var sreq := Search(CollectionName, vector, 3);
        var searched := e.trace + [sreq];
        match world.search(sreq)
        case Raised => Run(None, searched)
        case Returned(hits) =>
          if |hits| == 0 then Run(None, searched)
          else
            match ContextOf(hits)
            case None => Run(None, searched)
            case Some(context) =>
              var creq := RagCompletion(cfg, RagPrompt(context, query));
              match world.complete(creq)
              case Raised => Run(None, searched + [creq])
              case Returned(text) => Run(Some(AnswerResult(text, FromRag)), searched + [creq])
  }

  /** `rag_agent` gives no answer when the embedding call raises, when the
      search raises or finds nothing, or when a hit's text cannot be joined. */
  lemma RagDeclines(query: string, cfg: Config, world: World)
    requires cfg.qdrant && cfg.openai
    ensures world.embed(Embedding(EmbeddingModel, query)).Raised? ==> RagAgent(query, cfg, world).value.None?
    ensures world.embed(Embedding(EmbeddingModel, query)).Returned? ==>
      var search := world.search(Search(CollectionName, world.embed(Embedding(EmbeddingModel, query)).value, 3));
      (search.Raised? || |search.value| == 0 || ContextOf(search.value).None?) ==>
        RagAgent(query, cfg, world).value.None?
    ensures world.embed(Embedding(EmbeddingModel, query)).Returned? ==>
      var search := world.search(Search(CollectionName, world.embed(Embedding(EmbeddingModel, query)).value, 3));
      (search.Returned? && |search.value| > 0 && ContextOf(search.value).Some?
       && world.complete(RagCompletion(cfg, RagPrompt(ContextOf(search.value).value, query))).Raised?) ==>
        RagAgent(query, cfg, world).value.None?
  {
  }

  /** The context of a single hit: nothing for a hit without a payload, its
      text for a payload whose `text` is a string (or absent), and a failed
      join otherwise. */
  lemma ContextPartsSingle(h: Hit)
    ensures !HasPayload(h) ==> ContextParts([h]) == Some([])
    ensures HasPayload(h) && TextField(h.payload.value).Str? ==>
      ContextParts([h]) == Some([TextField(h.payload.value).s])
    ensures HasPayload(h) && TextField(h.payload.value).Num? ==> ContextParts([h]).None?
  {
    assert [h][1..] == [];
    if HasPayload(h) && TextField(h.payload.value).Str? {
      var t := TextField(h.payload.value).s;
      assert ContextParts([h]) == Some([t] + []);
      assert [t] + [] == [t];
    }
  }

  /** The texts of a list of hits are those of its first part followed by
      those of its second: the context keeps hit order, and together with
      `ContextPartsSingle` this fixes the list of texts completely. */
  lemma {:induction false} ContextPartsAppend(a: seq<Hit>, b: seq<Hit>)
    ensures ContextParts(a + b).Some? <==> ContextParts(a).Some? && ContextParts(b).Some?
    ensures ContextParts(a + b).Some? ==>
      ContextParts(a + b).value == ContextParts(a).value + ContextParts(b).value
    decreases |a|
  {
    if |a| == 0 {
      assert a + b == b;
    } else {
      ContextPartsAppend(a[1..], b);
      assert (a + b)[1..] == a[1..] + b;
      assert (a + b)[0] == a[0];
      if HasPayload(a[0]) && TextField(a[0].payload.value).Str? && ContextParts(a + b).Some? {
        var t := TextField(a[0].payload.value).s;
        assert ContextParts(a + b).value == [t] + ContextParts(a[1..] + b).value;
        assert ContextParts(a).value == [t] + ContextParts(a[1..]).value;
      }
    }
  }

  /** Every text the context is built from is a retrieved hit's text. */
  lemma {:induction false} ContextPartsHaveHitText(hits: seq<Hit>, i: nat)
    requires ContextParts(hits).Some?
    requires i < |hits| && HasPayload(hits[i])
    ensures TextField(hits[i].payload.value).Str?
    ensures TextField(hits[i].payload.value).s in ContextParts(hits).value
  {
    if i > 0 {
      assert hits[1..][i - 1] == hits[i];
      if !HasPayload(hits[0]) {
        ContextPartsHaveHitText(hits[1..], i - 1);
      } else {
        assert ContextParts(hits[1..]).Some?;
        ContextPartsHaveHitText(hits[1..], i - 1);
      }
    }
  }

  /** Each hit with a payload contributes its text, verbatim, to the context. */
  lemma ContextHoldsEveryText(hits: seq<Hit>, i: nat)
    requires ContextOf(hits).Some?
    requires i < |hits| && HasPayload(hits[i])
    ensures TextField(hits[i].payload.value).Str?
    ensures Occurs(TextField(hits[i].payload.value).s, ContextOf(hits).value)
  {
    ContextPartsHaveHitText(hits, i);
    var parts := ContextParts(hits).value;
    var k :| 0 <= k < |parts| && parts[k] == TextField(hits[i].payload.value).s;
    JoinContainsPart("\n", parts, k);
  }

  /** A single retrieved document yields exactly its text as the context. */
  lemma ContextOfSingleHit(p: Payload, t: string)
    requires |p| > 0 && TextField(p) == Str(t)
    ensures ContextOf([Hit(Some(p))]) == Some(t)
  {
    var hits := [Hit(Some(p))];
    assert hits[1..] == [];
    assert HasPayload(hits[0]);
    assert ContextParts(hits[1..]) == Some([]);
    assert ContextParts(hits) == Some([t] + []);
    assert [t] + [] == [t];
  }

  /** When `rag_agent` answers, the prompt it sent contains the text of
      every retrieved hit that had a payload. */
  lemma RetrievedTextInPrompt(query: string, cfg: Config, world: World, i: nat)
    requires RagAgent(query, cfg, world).value.Some?
    ensures
      var r := RagAgent(query, cfg, world);
      var hits := world.search(r.trace[1]).value;
      i < |hits| && HasPayload(hits[i]) ==>
        TextField(hits[i].payload.value).Str?
        && Occurs(TextField(hits[i].payload.value).s, r.trace[2].messages[0].content)
  {
    var r := RagAgent(query, cfg, world);
    var hits := world.search(r.trace[1]).value;
    if i < |hits| && HasPayload(hits[i]) {
      var context := ContextOf(hits).value;
      assert r.trace[2].messages[0].content == RagPrompt(context, query);
      ContextHoldsEveryText(hits, i);
      OccursTrans(TextField(hits[i].payload.value).s, context, RagPrompt(context, query));
    }
  }

  // ---------------------------------------------------------------------
  // LLM fallback
  // ---------------------------------------------------------------------

  const Unavailable: string := "LLM belum tersedia karena API key belum diset."
  const Persona: string := "Anda adalah asisten e-commerce Olist."

  function FallbackCompletion(cfg: Config, query: string): Request {
    ChatCompletion(ChatModel(cfg), [Message("system", Persona), Message("user", query)], Temperature)
  }

  /** `llm_fallback`: never "no answer". Without an OpenAI client it answers
      the fixed unavailability message as `System` and calls nothing;
      otherwise it forwards the raw query once. Its call is not guarded, so
      an exception from the endpoint escapes (`Raised`). */
  function LlmFallback(query: string, cfg: Config, world: World): (r: Run<Outcome<AnswerResult>>)
    ensures !cfg.openai ==> r.value == Returned(AnswerResult(Unavailable, FromSystem)) && r.trace == []
    ensures cfg.openai ==>
      && r.trace == [ChatCompletion(ChatModel(cfg), [Message("system", Persona), Message("user", query)], Temperature)]
      && (r.value.Raised? <==> world.complete(r.trace[0]).Raised?)
      && (r.value.Returned? ==>
            r.value.value == AnswerResult(world.complete(r.trace[0]).value, FromLlm))
  {
    if !cfg.openai then
      Run(Returned(AnswerResult(Unavailable, FromSystem)), [])
    else
      var req := FallbackCompletion(cfg, query);
      match world.complete(req)
      case Raised => Run(Raised, [req])
      case Returned(text) => Run(Returned(AnswerResult(text, FromLlm)), [req])
  }
}

=== FILE: batching.dfy ===
/** The batched upload loop of both ingestion scripts
    (ingest_olist_to_qdrant.py:63-117, ingest_cloud.py:63-113): points are
    appended to a pending list, the list is upserted and cleared whenever it
    reaches `BATCH_SIZE`, and a non-empty remainder is upserted at the end. */
module Batching {

  /** The concatenation of the batches, in upload order. */
  function Flatten<T>(batches: seq<seq<T>>): seq<T> {
    if |batches| == 0 then [] else batches[0] + Flatten(batches[1..])
  }

  lemma {:induction false} FlattenSnoc<T>(batches: seq<seq<T>>, b: seq<T>)
    ensures Flatten(batches + [b]) == Flatten(batches) + b
  {
    if |batches| == 0 {
      assert batches + [b] == [b];
    } else {
      FlattenSnoc(batches[1..], b);
      assert (batches + [b])[1..] == batches[1..] + [b];
    }
  }

  /** Quotient and remainder are determined by any decomposition with a
      remainder below the divisor. */
  lemma DivModUnique(n: nat, size: nat, q: nat, r: nat)
    requires 0 < size && n == q * size + r && r < size
    ensures q == n / size && r == n % size
  {
    var q0, r0 := n / size, n % size;
    assert q0 * size + r0 == n;
    if q0 < q {
      MulMonotone(q0 + 1, q, size);
    } else if q < q0 {
      MulMonotone(q + 1, q0, size);
    }
  }

  lemma MulSucc(a: nat, c: nat)
    ensures (a + 1) * c == a * c + c
  {
  }

  lemma MulMonotone(a: nat, b: nat, c: nat)
    requires a <= b
    ensures a * c <= b * c
  {
  }

  /** Runs the upload loop over `points` and returns the upserted batches in
      order, with the final `uploaded` counter. All points are uploaded, in
      order, each once; the batches flushed inside the loop hold exactly
      `size` points and the final flush holds the non-empty remainder. */
  method Upload<T>(points: seq<T>, size: nat) returns (batches: seq<seq<T>>, uploaded: nat)
    requires size > 0
    ensures Flatten(batches) == points
    ensures uploaded == |points|
    ensures |batches| == |points| / size + (if |points| % size == 0 then 0 else 1)
    ensures forall j :: 0 <= j < |points| / size ==> |batches[j]| == size
    ensures |points| % size != 0 ==> |batches[|batches| - 1]| == |points| % size
  {
    var pending: seq<T> := [];
    batches := [];
    uploaded := 0;
    var i := 0;
    while i < |points|
      invariant 0 <= i <= |points|
      invariant Flatten(batches) + pending == points[..i]
      invariant i == |batches| * size + |pending| && |pending| < size
      invariant forall j :: 0 <= j < |batches| ==> |batches[j]| == size
      invariant uploaded == |batches| * size
    {
      assert points[..i + 1] == points[..i] + [points[i]];
      pending := pending + [points[i]];
      if |pending| >= size {
        FlattenSnoc(batches, pending);
        MulSucc(|batches|, size);
        batches := batches + [pending];
        uploaded := uploaded + |pending|;
        pending := [];
      }
      i := i + 1;
    }
    assert points[..i] == points;
    DivModUnique(|points|, size, |batches|, |pending|);
    if |pending| > 0 {
      FlattenSnoc(batches, pending);
      batches := batches + [pending];
      uploaded := uploaded + |pending|;
    }
  }
}

=== FILE: classifier.dfy ===
/** The keyword gate in front of the SQL agent (main.py:85-88): a query is a
    structured candidate when its lower-cased text contains one of five fixed
    keywords as a substring. No tokenising, no stemming. */
module Classifier {
  import opened Text

  const Keywords: seq<string> := ["harga", "price", "seller", "kota", "lokasi"]

  /** Some keyword of `keywords` occurs in `q`. */
  ghost predicate SomeKeywordIn(keywords: seq<string>, q: string) {
    exists j :: 0 <= j < |keywords| && Occurs(keywords[j], q)
  }

  /** Python's `any(k in q for k in keywords)`, left to right. */
  function AnyOccurs(keywords: seq<string>, q: string): (r: bool)
    ensures r <==> SomeKeywordIn(keywords, q)
  {
    if |keywords| == 0 then false
    else if Contains(q, keywords[0]) then true
    else
      var r := AnyOccurs(keywords[1..], q);
      assert SomeKeywordIn(keywords, q) ==> r by {
        if SomeKeywordIn(keywords, q) {
          var j :| 0 <= j < |keywords| && Occurs(keywords[j], q);
          assert j != 0;
          assert keywords[1..][j - 1] == keywords[j];
        }
      }
      assert r ==> SomeKeywordIn(keywords, q) by {
        if r {
          var j :| 0 <= j < |keywords[1..]| && Occurs(keywords[1..][j], q);
          assert keywords[j + 1] == keywords[1..][j];
        }
      }
      r
  }

  /** The query is a structured candidate exactly when one of the keywords
      is a substring of its lower-cased text. */
  function IsStructuredCandidate(query: string): (r: bool)
    ensures r <==> SomeKeywordIn(Keywords, Lower(query))
  {
    AnyOccurs(Keywords, Lower(query))
  }

  /** The empty query is never a structured candidate. */
  lemma EmptyQueryIsNotCandidate()
    ensures !IsStructuredCandidate("")
  {
    assert Lower("") == "";
  }

  /** The classification depends only on the lower-cased query, so it ignores case. */
  lemma CaseInsensitive(q1: string, q2: string)
    requires Lower(q1) == Lower(q2)
    ensures IsStructuredCandidate(q1) == IsStructuredCandidate(q2)
  {
  }

  /** Lower-casing the query first does not change the classification. */
  lemma LowerDoesNotMatter(q: string)
    ensures IsStructuredCandidate(Lower(q)) == IsStructuredCandidate(q)
  {
    LowerIdempotent(q);
  }

  /** A query containing a keyword in any mix of upper and lower case — say
      "Berapa HARGA produk ini?" — is a structured candidate. */
  lemma {:induction false} KeywordInAnyCase(query: string, w: string, j: nat)
    requires j < |Keywords| && Lower(w) == Keywords[j]
    requires Occurs(w, query)
    ensures IsStructuredCandidate(query)
  {
    var i :| OccursAt(w, query, i);
    LowerSlice(query, i, i + |w|);
    assert OccursAt(Keywords[j], Lower(query), i);
  }
}

=== FILE: cleaning.dfy ===
/** Row cleaning shared by both ingestion scripts
    (ingest_olist_to_qdrant.py:43-58, ingest_cloud.py:44-58): drop rows
    without a product id or category, fill the other missing cells with
    defaults, and keep only the first `MAX_ROWS` rows. */
module Cleaning {
  import opened Wrappers

  /** One CSV row restricted to the seven selected columns; `None` is a
      missing cell (pandas NaN). Prices and scores are numbers. */
  datatype RawRow = RawRow(
    productId: Option<string>,
    category: Option<string>,
    price: Option<real>,
    sellerCity: Option<string>,
    sellerState: Option<string>,
    review: Option<string>,
    reviewScore: Option<real>)

  /** A row after cleaning. `index` is the row's pandas index label: its
      position in the CSV, which `dropna` and `head` leave unchanged. */
  datatype CleanRow = CleanRow(
    index: nat,
    productId: string,
    category: string,
    price: real,
    sellerCity: string,
    sellerState: string,
    review: string,
    reviewScore: real)

  const Unknown: string := "unknown"

  /** `dropna(subset=["product_id", "product_category_name"])` keeps a row. */
  predicate Keep(row: RawRow) {
    row.productId.Some? && row.category.Some?
  }

  /** The five `fillna` calls applied to a kept row at CSV position `index`. */
  function Fill(row: RawRow, index: nat): (c: CleanRow)
    requires Keep(row)
    ensures c.index == index
    ensures c.productId == row.productId.value && c.category == row.category.value
    ensures row.sellerCity.Some? ==> c.sellerCity == row.sellerCity.value
    ensures row.sellerCity.None? ==> c.sellerCity == Unknown
    ensures row.sellerState.Some? ==> c.sellerState == row.sellerState.value
    ensures row.sellerState.None? ==> c.sellerState == Unknown
    ensures row.price.Some? ==> c.price == row.price.value
    ensures row.price.None? ==> c.price == 0.0
    ensures row.review.Some? ==> c.review == row.review.value
    ensures row.review.None? ==> c.review == ""
    ensures row.reviewScore.Some? ==> c.reviewScore == row.reviewScore.value
    ensures row.reviewScore.None? ==> c.reviewScore == 0.0
  {
    CleanRow(
      index,
      row.productId.value,
      row.category.value,
      row.price.GetOr(0.0),
      row.sellerCity.GetOr(Unknown),
      row.sellerState.GetOr(Unknown),
      row.review.GetOr(""),
      row.reviewScore.GetOr(0.0))
  }

  /** The number of rows `dropna` keeps. */
  function KeptCount(raw: seq<RawRow>): nat {
    if |raw| == 0 then 0 else (if Keep(raw[0]) then 1 else 0) + KeptCount(raw[1..])
  }

  /** Drop-and-fill over rows sitting at CSV positions `offset`, `offset + 1`, ... */
  function CleanFrom(raw: seq<RawRow>, offset: nat): (rows: seq<CleanRow>)
    ensures |rows| == KeptCount(raw)
    ensures forall j :: 0 <= j < |rows| ==> offset <= rows[j].index < offset + |raw|
    decreases |raw|
  {
    if |raw| == 0 then []
    else
      var rest := CleanFrom(raw[1..], offset + 1);
      if Keep(raw[0]) then [Fill(raw[0], offset)] + rest else rest
  }

  /** Every surviving row is the filled-in version of a kept raw row. */
  lemma {:induction false} CleanFromSound(raw: seq<RawRow>, offset: nat)
    ensures forall j :: 0 <= j < |CleanFrom(raw, offset)| ==>
      Keep(raw[CleanFrom(raw, offset)[j].index - offset])
      && CleanFrom(raw, offset)[j] == Fill(raw[CleanFrom(raw, offset)[j].index - offset], CleanFrom(raw, offset)[j].index)
    decreases |raw|
  {
    if |raw| > 0 {
      CleanFromSound(raw[1..], offset + 1);
      var rows := CleanFrom(raw, offset);
      var rest := CleanFrom(raw[1..], offset + 1);
      forall j | 0 <= j < |rest|
        ensures raw[rest[j].index - offset] == raw[1..][rest[j].index - (offset + 1)]
      {
      }
      if Keep(raw[0]) {
        assert rows == [Fill(raw[0], offset)] + rest;
        forall j | 0 < j < |rows|
          ensures rows[j] == rest[j - 1]
        {
        }
      } else {
        assert rows == rest;
      }
    }
  }

  /** Surviving rows keep their relative order. */
  lemma {:induction false} CleanFromOrdered(raw: seq<RawRow>, offset: nat)
    ensures forall j, k :: 0 <= j < k < |CleanFrom(raw, offset)| ==>
      CleanFrom(raw, offset)[j].index < CleanFrom(raw, offset)[k].index
    decreases |raw|
  {
    if |raw| > 0 {
      CleanFromOrdered(raw[1..], offset + 1);
      var rows := CleanFrom(raw, offset);
      var rest := CleanFrom(raw[1..], offset + 1);
      if Keep(raw[0]) {
        assert rows == [Fill(raw[0], offset)] + rest;
        forall j | 0 < j < |rows|
          ensures rows[j] == rest[j - 1] && rows[0].index < rows[j].index
        {
        }
      } else {
        assert rows == rest;
      }
    }
  }

  /** No kept row is lost. */
  lemma {:induction false} CleanFromComplete(raw: seq<RawRow>, offset: nat, i: nat)
    requires i < |raw| && Keep(raw[i])
    ensures exists j :: 0 <= j < |CleanFrom(raw, offset)| && CleanFrom(raw, offset)[j].index == offset + i
    decreases |raw|
  {
    var rows := CleanFrom(raw, offset);
    if i == 0 {
      assert rows[0].index == offset;
    } else {
      assert raw[1..][i - 1] == raw[i];
      CleanFromComplete(raw[1..], offset + 1, i - 1);
      var rest := CleanFrom(raw[1..], offset + 1);
      var j :| 0 <= j < |rest| && rest[j].index == offset + 1 + (i - 1);
      if Keep(raw[0]) {
        assert rows == [Fill(raw[0], offset)] + rest;
        assert rows[j + 1] == rest[j];
      } else {
        assert rows == rest;
      }
    }
  }

  /** Drop and fill the rows of the whole CSV. Every surviving row is a kept
      row filled in; surviving rows keep their relative order; no kept row
      is lost. */
  function Clean(raw: seq<RawRow>): (rows: seq<CleanRow>)
    ensures |rows| == KeptCount(raw)
    ensures forall j :: 0 <= j < |rows| ==>
      rows[j].index < |raw| && Keep(raw[rows[j].index])
      && rows[j] == Fill(raw[rows[j].index], rows[j].index)
    ensures forall j, k :: 0 <= j < k < |rows| ==> rows[j].index < rows[k].index
    ensures forall i :: 0 <= i < |raw| && Keep(raw[i]) ==>
      exists j :: 0 <= j < |rows| && rows[j].index == i
  {
    CleanFromSound(raw, 0);
    CleanFromOrdered(raw, 0);
    forall i | 0 <= i < |raw| && Keep(raw[i])
      ensures exists j :: 0 <= j < |CleanFrom(raw, 0)| && CleanFrom(raw, 0)[j].index == i
    {
      CleanFromComplete(raw, 0, i);
    }
    CleanFrom(raw, 0)
  }

  /** `df.head(n)`: the first `n` rows, or all of them when there are fewer. */
  function Head(rows: seq<CleanRow>, n: nat): (h: seq<CleanRow>)
    ensures h <= rows
    ensures |h| == if |rows| <= n then |rows| else n
  {
    if |rows| <= n then rows else rows[..n]
  }
}

=== FILE: collaborators.dfy ===
/** The external services the chat service talks to — the sqlite file, the
    OpenAI embedding and chat endpoints, and the Qdrant vector index — seen
    only through the requests sent to them and the answers they give back.
    Their behaviour is a parameter of the model, never something it computes. */
module Collaborators {
  import opened Wrappers

  /** An embedding vector; its numbers are never inspected here. */
  type Vector = seq<real>

  /** A value stored in a Qdrant payload dictionary. */
  datatype PayloadValue = Str(s: string) | Num(x: real)

  /** A Qdrant payload: a dictionary from field name to value. */
  type Payload = map<string, PayloadValue>

  /** One search result; Qdrant may return a point without a payload. */
  datatype Hit = Hit(payload: Option<Payload>)

  /** One row of `SELECT product_id, price, seller_city FROM products`,
      each column already rendered as Python's `str()` shows it. */
  datatype SqlRow = SqlRow(productId: string, price: string, sellerCity: string)

  datatype Message = Message(role: string, content: string)

  /** The requests this code issues to its collaborators, in the order issued. */
  datatype Request =
    | DbSelect
    | Embedding(model: string, input: string)
    | Search(collection: string, vector: Vector, limit: nat)
    | ChatCompletion(model: string, messages: seq<Message>, temperature: real)

  /** Which clients were constructed at start-up: `openai` when
      `OPENAI_API_KEY` is set, `qdrant` when both `QDRANT_URL` and
      `QDRANT_API_KEY` are; `chatModel` is `OPENAI_CHAT_MODEL` if set. */
  datatype Config = Config(openai: bool, qdrant: bool, chatModel: Option<string>)

  /** How the collaborators answer: whether `olist.db` exists, what the fixed
      SELECT yields (or that it raised), and the three remote endpoints. */
  datatype World = World(
    dbFileExists: bool,
    dbRows: Outcome<seq<SqlRow>>,
    embed: Request -> Outcome<Vector>,
    search: Request -> Outcome<seq<Hit>>,
    complete: Request -> Outcome<string>)

  /** A computed value together with the requests issued while computing it. */
  datatype Run<+T> = Run(value: T, trace: seq<Request>)

  const EmbeddingModel: string := "text-embedding-3-small"
  const DefaultChatModel: string := "gpt-4o-mini"
  const CollectionName: string := "olist_products"

  /** `os.getenv("OPENAI_CHAT_MODEL", "gpt-4o-mini")`. */
  function ChatModel(cfg: Config): (m: string)
    ensures cfg.chatModel.Some? ==> m == cfg.chatModel.value
    ensures cfg.chatModel.None? ==> m == DefaultChatModel
  {
    cfg.chatModel.GetOr(DefaultChatModel)
  }
}

=== FILE: document.dfy ===
/** The text document built for each product row by both ingestion scripts
    (ingest_olist_to_qdrant.py:67-75, ingest_cloud.py:69-77): a blank line,
    then seven labelled lines in fixed order, each ending in a newline.
    `ParseDocument` reads the fields back; the two are proved inverse. */
module Document {
  import opened Wrappers
  import opened Text

  /** The seven values shown in a document, already rendered as text. */
  datatype DocFields = DocFields(
    productId: string,
    category: string,
    price: string,
    city: string,
    state: string,
    review: string,
    rating: string)

  /** The labels, in the order the document shows them. */
  const Labels: seq<string> := [
    "ID Produk: ", "Kategori Produk: ", "Harga Produk: ", "Kota Seller: ",
    "Provinsi Seller: ", "Review Pelanggan: ", "Rating: "]

  function Values(f: DocFields): (vs: seq<string>)
    ensures |vs| == |Labels|
  {
    [f.productId, f.category, f.price, f.city, f.state, f.review, f.rating]
  }

  function FromValues(vs: seq<string>): (f: DocFields)
    requires |vs| == |Labels|
    ensures Values(f) == vs
  {
    DocFields(vs[0], vs[1], vs[2], vs[3], vs[4], vs[5], vs[6])
  }

  /** The f-string of the scripts: a leading newline, one labelled line per
      field, and a trailing newline. */
  function BuildDocument(f: DocFields): string {
    "\nID Produk: " + f.productId
    + "\nKategori Produk: " + f.category
    + "\nHarga Produk: " + f.price
    + "\nKota Seller: " + f.city
    + "\nProvinsi Seller: " + f.state
    + "\nReview Pelanggan: " + f.review
    + "\nRating: " + f.rating
    + "\n"
  }

  /** The document's lines: an empty one, then `label + value` per field. */
  function DocLines(f: DocFields): (ls: seq<string>)
    ensures |ls| == |Labels| + 1 && ls[0] == ""
    ensures forall i :: 0 <= i < |Labels| ==> ls[i + 1] == Labels[i] + Values(f)[i]
  {
    [""] + seq(|Labels|, i requires 0 <= i < |Labels| => Labels[i] + Values(f)[i])
  }

  /** No value of the document spans more than one line. */
  predicate SingleLine(f: DocFields) {
    forall i :: 0 <= i < |Labels| ==> '\n' !in Values(f)[i]
  }

  /** Reads a document back: it must split into exactly the blank line, the
      seven labelled lines in order, and nothing after the final newline. */
  function ParseDocument(doc: string): Option<DocFields> {
    var ls := Split(doc, '\n');
    if |ls| == |Labels| + 2 && ls[0] == "" && ls[|Labels| + 1] == ""
       && forall i :: 0 <= i < |Labels| ==> Labels[i] <= ls[i + 1]
    then Some(FromValues(seq(|Labels|, i requires 0 <= i < |Labels| && Labels[i] <= ls[i + 1] =>
                                ls[i + 1][|Labels[i]|..])))
    else None
  }

  /** The document is the text of its lines, each ending in a newline. */
  lemma DocumentLines(f: DocFields)
    ensures BuildDocument(f) == Terminated(DocLines(f), '\n')
  {
    var ls := DocLines(f);
    var p3 := "\nID Produk: " + f.productId
      + "\nKategori Produk: " + f.category
      + "\nHarga Produk: " + f.price;
    FirstLines(f);
    LabelHeads();
    var p4 := p3 + "\nKota Seller: " + f.city;
    StepLine(ls, 4, p3, Labels[3], "\nKota Seller: ", f.city);
    var p5 := p4 + "\nProvinsi Seller: " + f.state;
    StepLine(ls, 5, p4, Labels[4], "\nProvinsi Seller: ", f.state);
    var p6 := p5 + "\nReview Pelanggan: " + f.review;
    StepLine(ls, 6, p5, Labels[5], "\nReview Pelanggan: ", f.review);
    StepLine(ls, 7, p6, Labels[6], "\nRating: ", f.rating);
    assert ls[..8] == ls;
  }

  /** The blank line and the first three labelled lines. */
  lemma FirstLines(f: DocFields)
    ensures Terminated(DocLines(f)[..4], '\n')
         == "\nID Produk: " + f.productId
          + "\nKategori Produk: " + f.category
          + "\nHarga Produk: " + f.price + "\n"
  {
    var ls := DocLines(f);
    assert ls[..1] == [""];
    assert Terminated(ls[..1], '\n') == "" + "\n";
    LabelHeads();
    var p1 := "\nID Produk: " + f.productId;
    StepLine(ls, 1, "", Labels[0], "\nID Produk: ", f.productId);
    var p2 := p1 + "\nKategori Produk: " + f.category;
    StepLine(ls, 2, p1, Labels[1], "\nKategori Produk: ", f.category);
    StepLine(ls, 3, p2, Labels[2], "\nHarga Produk: ", f.price);
  }

  /** Each line break of the f-string followed by its label. */
  lemma LabelHeads()
    ensures "\n" + Labels[0] == "\nID Produk: "
    ensures "\n" + Labels[1] == "\nKategori Produk: "
    ensures "\n" + Labels[2] == "\nHarga Produk: "
    ensures "\n" + Labels[3] == "\nKota Seller: "
    ensures "\n" + Labels[4] == "\nProvinsi Seller: "
    ensures "\n" + Labels[5] == "\nReview Pelanggan: "
    ensures "\n" + Labels[6] == "\nRating: "
  {
  }

  /** One step of the f-string: the next labelled line joins the text. */
  lemma StepLine(lines: seq<string>, k: nat, p: string, name: string, head: string, v: string)
    requires 0 < k < |lines| && lines[k] == name + v && head == "\n" + name
    requires Terminated(lines[..k], '\n') == p + "\n"
    ensures Terminated(lines[..k + 1], '\n') == p + head + v + "\n"
  {
    assert lines[..k + 1] == lines[..k] + [lines[k]];
    TerminatedSnoc(lines[..k], lines[k], '\n');
  }

  lemma LabelsSingleLine()
    ensures forall i :: 0 <= i < |Labels| ==> '\n' !in Labels[i]
  {
  }

  /** Parsing a built document gives back its fields, provided no field
      value itself contains a line break. */
  lemma ParseBuild(f: DocFields)
    requires SingleLine(f)
    ensures ParseDocument(BuildDocument(f)) == Some(f)
  {
    var ls := DocLines(f);
    DocumentLines(f);
    LabelsSingleLine();
    forall i | 0 <= i < |ls|
      ensures '\n' !in ls[i]
    {
      if i > 0 {
        assert ls[i] == Labels[i - 1] + Values(f)[i - 1];
      }
    }
    SplitTerminated(ls, '\n');
    var parts := ls + [""];
    assert Split(BuildDocument(f), '\n') == parts;
    forall i | 0 <= i < |Labels|
      ensures Labels[i] <= parts[i + 1] && parts[i + 1][|Labels[i]|..] == Values(f)[i]
    {
      assert parts[i + 1] == Labels[i] + Values(f)[i];
    }
    var vs := seq(|Labels|, i requires 0 <= i < |Labels| && Labels[i] <= parts[i + 1] =>
                   parts[i + 1][|Labels[i]|..]);
    assert vs == Values(f);
    assert FromValues(vs) == f;
  }

  /** Every document the parser accepts is exactly the document built from
      the fields it returns. */
  lemma BuildParse(doc: string, f: DocFields)
    requires ParseDocument(doc) == Some(f)
    ensures BuildDocument(f) == doc
  {
    var ls := Split(doc, '\n');
    JoinSplit(doc, '\n');
    var lines := ls[..|Labels| + 1];
    assert ls == lines + [""];
    JoinEmptyLast(lines, '\n');
    ParsedLines(doc, f);
    DocumentLines(f);
  }

  /** The lines of an accepted document are the lines of the returned fields. */
  lemma ParsedLines(doc: string, f: DocFields)
    requires ParseDocument(doc) == Some(f)
    ensures Split(doc, '\n')[..|Labels| + 1] == DocLines(f)
  {
    var ls := Split(doc, '\n');
    var lines := ls[..|Labels| + 1];
    forall i | 0 <= i < |Labels|
      ensures lines[i + 1] == Labels[i] + Values(f)[i]
    {
      assert Values(f)[i] == ls[i + 1][|Labels[i]|..];
      assert ls[i + 1] == Labels[i] + ls[i + 1][|Labels[i]|..];
    }
  }
}

=== FILE: ingest.dfy ===
/** The two ingestion scripts, ingest_olist_to_qdrant.py and ingest_cloud.py:
    clean the CSV rows, keep the first `MAX_ROWS`, build one document and one
    point per row, embed the document, and upsert the points in batches.
    The scripts differ only in three constants, gathered in `IngestConfig`. */
module Ingest {
  import opened Wrappers
  import opened Text
  import opened Collaborators
  import opened Cleaning
  import opened Document
  import opened Batching
  import Agents

  /** `MAX_ROWS`, `BATCH_SIZE`, and the review cut-off (ingest_cloud.py only). */
  datatype IngestConfig = IngestConfig(maxRows: nat, batchSize: nat, reviewLimit: Option<nat>)

  /** ingest_olist_to_qdrant.py:54-55. */
  const OlistScript: IngestConfig := IngestConfig(300, 25, None)

  /** ingest_cloud.py:55-56 and the `[:500]` of ingest_cloud.py:67. */
  const CloudScript: IngestConfig := IngestConfig(100, 20, Some(500))

  /** One Qdrant point: its id, the document's embedding, and its payload. */
  datatype Point = Point(id: nat, vector: Vector, payload: Payload)

  /** The review as shown in the document: verbatim, or cut to the limit. */
  function ReviewText(cfg: IngestConfig, review: string): (t: string)
    ensures t <= review
    ensures cfg.reviewLimit.None? ==> t == review
    ensures cfg.reviewLimit.Some? ==> |t| <= cfg.reviewLimit.value
    ensures cfg.reviewLimit.Some? && |review| <= cfg.reviewLimit.value ==> t == review
    ensures cfg.reviewLimit.Some? && |review| > cfg.reviewLimit.value ==> |t| == cfg.reviewLimit.value
  {
    match cfg.reviewLimit
    case None => review
    case Some(n) => Truncate(review, n)
  }

  /** How a row's numbers appear in the f-string: Python's `str()` of the
      cell, which prints `5.0` for a float column and `5` for an integer one.
      pandas chooses the column type from the CSV, so the price and the score
      are rendered independently; the model does not compute either. */
  datatype Render = Render(price: real -> string, score: real -> string)

  /** The document's fields for a cleaned row. */
  function RowFields(cfg: IngestConfig, row: CleanRow, render: Render): DocFields {
    DocFields(row.productId, row.category, render.price(row.price), row.sellerCity,
              row.sellerState, ReviewText(cfg, row.review), render.score(row.reviewScore))
  }

  function EmbedRequest(doc: string): Request {
    Embedding(EmbeddingModel, doc)
  }

  /** The point appended for one row (`"id": int(idx)`, the embedding of the
      document, and the five payload fields). */
  function PointOf(cfg: IngestConfig, row: CleanRow, render: Render, embed: Request -> Vector): (p: Point)
    ensures p.id == row.index
    ensures "text" in p.payload && p.payload["text"] == Str(BuildDocument(RowFields(cfg, row, render)))
    ensures p.vector == embed(EmbedRequest(p.payload["text"].s))
    ensures p.payload.Keys == {"text", "category", "seller_city", "price", "review_score"}
    ensures p.payload["category"] == Str(row.category)
    ensures p.payload["seller_city"] == Str(row.sellerCity)
    ensures p.payload["price"] == Num(row.price) && p.payload["review_score"] == Num(row.reviewScore)
  {
    var doc := BuildDocument(RowFields(cfg, row, render));
    var payload := map[
      "text" := Str(doc),
      "category" := Str(row.category),
      "seller_city" := Str(row.sellerCity),
      "price" := Num(row.price),
      "review_score" := Num(row.reviewScore)];
    Point(row.index, embed(EmbedRequest(doc)), payload)
  }

  /** The stored text reads back as the row's fields: product id, category,
      rendered price, city, state, review (cut in the cloud script) and
      rendered score, in that order — provided no value spans two lines. */
  lemma PointTextParses(cfg: IngestConfig, row: CleanRow, render: Render, embed: Request -> Vector)
    requires SingleLine(RowFields(cfg, row, render))
    ensures ParseDocument(PointOf(cfg, row, render, embed).payload["text"].s) == Some(RowFields(cfg, row, render))
  {
    ParseBuild(RowFields(cfg, row, render));
  }

  /** Retrieving an ingested point as the only search hit puts its document,
      verbatim, into the RAG agent's context block. */
  lemma IngestedTextRoundTrip(cfg: IngestConfig, row: CleanRow, render: Render, embed: Request -> Vector)
    ensures var p := PointOf(cfg, row, render, embed);
      Agents.ContextOf([Hit(Some(p.payload))]) == Some(BuildDocument(RowFields(cfg, row, render)))
  {
    var p := PointOf(cfg, row, render, embed);
    assert "text" in p.payload.Keys;
    assert |p.payload| > 0;
    Agents.ContextOfSingleHit(p.payload, BuildDocument(RowFields(cfg, row, render)));
  }

  /** One point per processed row, in row order. */
  function BuildPoints(cfg: IngestConfig, rows: seq<CleanRow>, render: Render, embed: Request -> Vector): (ps: seq<Point>)
    ensures |ps| == |rows|
    ensures forall i :: 0 <= i < |rows| ==> ps[i] == PointOf(cfg, rows[i], render, embed)
  {
    seq(|rows|, i requires 0 <= i < |rows| => PointOf(cfg, rows[i], render, embed))
  }

  /** The rows a script processes: the cleaned CSV cut to `MAX_ROWS`. */
  function ProcessedRows(cfg: IngestConfig, raw: seq<RawRow>): (rows: seq<CleanRow>)
    ensures rows <= Clean(raw)
    ensures |rows| <= cfg.maxRows
    ensures |Clean(raw)| >= cfg.maxRows ==> |rows| == cfg.maxRows
    ensures |Clean(raw)| <= cfg.maxRows ==> rows == Clean(raw)
  {
    Head(Clean(raw), cfg.maxRows)
  }

  /** A whole ingestion run: returns the batches upserted, in order, and the
      final `uploaded` counter. Every processed row is uploaded exactly once,
      in row order, as the point built from it; every batch flushed in the
      loop holds `BATCH_SIZE` points and the final one the remainder. */
  method Ingest(cfg: IngestConfig, raw: seq<RawRow>, render: Render, embed: Request -> Vector)
    returns (batches: seq<seq<Point>>, uploaded: nat)
    requires cfg.batchSize > 0
    ensures var n := |ProcessedRows(cfg, raw)|;
      && uploaded == n
      && |Flatten(batches)| == n
      && |batches| == n / cfg.batchSize + (if n % cfg.batchSize == 0 then 0 else 1)
      && (forall j :: 0 <= j < n / cfg.batchSize ==> |batches[j]| == cfg.batchSize)
      && (n % cfg.batchSize != 0 ==> 0 < |batches[|batches| - 1]| < cfg.batchSize)
    ensures forall i :: 0 <= i < |Flatten(batches)| ==>
      Flatten(batches)[i] == PointOf(cfg, ProcessedRows(cfg, raw)[i], render, embed)
  {
    var rows := ProcessedRows(cfg, raw);
    var points := BuildPoints(cfg, rows, render, embed);
    batches, uploaded := Upload(points, cfg.batchSize);
  }

  /** ingest_olist_to_qdrant.py: the first 300 cleaned rows, in batches of 25,
      each stored with its full review. */
  method IngestOlist(raw: seq<RawRow>, render: Render, embed: Request -> Vector)
    returns (batches: seq<seq<Point>>, uploaded: nat)
    ensures uploaded == |Flatten(batches)| == if |Clean(raw)| <= 300 then |Clean(raw)| else 300
    ensures forall j :: 0 <= j < |batches| - 1 ==> |batches[j]| == 25
    ensures |batches| > 0 ==> 0 < |batches[|batches| - 1]| <= 25
    ensures forall i :: 0 <= i < |Flatten(batches)| ==>
      Flatten(batches)[i] == PointOf(OlistScript, Clean(raw)[i], render, embed)
    ensures forall i :: 0 <= i < |Flatten(batches)| ==>
      RowFields(OlistScript, Clean(raw)[i], render).review == Clean(raw)[i].review
  {
    batches, uploaded := Ingest(OlistScript, raw, render, embed);
    BatchShape(|ProcessedRows(OlistScript, raw)|, 25, batches);
  }

  /** ingest_cloud.py: the first 100 cleaned rows, in batches of 20, each
      stored with its review cut to 500 characters. */
  method IngestCloud(raw: seq<RawRow>, render: Render, embed: Request -> Vector)
    returns (batches: seq<seq<Point>>, uploaded: nat)
    ensures uploaded == |Flatten(batches)| == if |Clean(raw)| <= 100 then |Clean(raw)| else 100
    ensures forall j :: 0 <= j < |batches| - 1 ==> |batches[j]| == 20
    ensures |batches| > 0 ==> 0 < |batches[|batches| - 1]| <= 20
    ensures forall i :: 0 <= i < |Flatten(batches)| ==>
      Flatten(batches)[i] == PointOf(CloudScript, Clean(raw)[i], render, embed)
    ensures forall i :: 0 <= i < |Flatten(batches)| ==>
      && RowFields(CloudScript, Clean(raw)[i], render).review <= Clean(raw)[i].review
      && |RowFields(CloudScript, Clean(raw)[i], render).review| <= 500
      && (|Clean(raw)[i].review| <= 500 ==> RowFields(CloudScript, Clean(raw)[i], render).review == Clean(raw)[i].review)
      && (|Clean(raw)[i].review| > 500 ==> |RowFields(CloudScript, Clean(raw)[i], render).review| == 500)
  {
    batches, uploaded := Ingest(CloudScript, raw, render, embed);
    BatchShape(|ProcessedRows(CloudScript, raw)|, 20, batches);
  }

  /** Restates the batch counts of `Ingest` without division: all batches
      but the last are full, and the last is non-empty. */
  lemma BatchShape<T>(n: nat, size: nat, batches: seq<seq<T>>)
    requires size > 0
    requires |batches| == n / size + (if n % size == 0 then 0 else 1)
    requires forall j :: 0 <= j < n / size ==> |batches[j]| == size
    requires n % size != 0 ==> 0 < |batches[|batches| - 1]| < size
    ensures forall j :: 0 <= j < |batches| - 1 ==> |batches[j]| == size
    ensures |batches| > 0 ==> 0 < |batches[|batches| - 1]| <= size
  {
  }
}

=== FILE: router.dfy ===
/** `router_agent` (main.py:197-206): try the SQL agent, then the RAG agent,
    then the LLM fallback, and return the first answer obtained. */
module Router {
  import opened Wrappers
  import opened Text
  import opened Collaborators
  import opened Classifier
  import opened Agents

  datatype Strategy = Sql | Rag | Fallback

  /** The fixed priority order. */
  const Priority: seq<Strategy> := [Sql, Rag, Fallback]

  /** The routed answer, the strategies tried in order, and every request
      issued on the way. `answer` is `Raised` only when the unguarded
      completion call of the fallback raised. */
  datatype Routed = Routed(answer: Outcome<AnswerResult>, tried: seq<Strategy>, trace: seq<Request>)

  /** The sources a strategy can put on its answer. */
  predicate Produces(s: Strategy, src: Source) {
    match s
    case Sql => src == FromSql
    case Rag => src == FromRag
    case Fallback => src == FromLlm || src == FromSystem
  }

  function RouterAgent(query: string, cfg: Config, world: World): (r: Routed)
    ensures 1 <= |r.tried| <= 3 && r.tried == Priority[..|r.tried|]
    ensures r.answer.Returned? ==> Produces(r.tried[|r.tried| - 1], r.answer.value.source)
    ensures r.answer.Raised? ==> r.tried == Priority && cfg.openai
    ensures r.trace == SqlAgent(query, world).trace
      + (if |r.tried| >= 2 then RagAgent(query, cfg, world).trace else [])
      + (if |r.tried| == 3 then LlmFallback(query, cfg, world).trace else [])
  {
    var sql := SqlAgent(query, world);
    if sql.value.Some? then
      Routed(Returned(sql.value.value), [Sql], sql.trace)
    else
      var rag := RagAgent(query, cfg, world);
      if rag.value.Some? then
        Routed(Returned(rag.value.value), [Sql, Rag], sql.trace + rag.trace)
      else
        var fb := LlmFallback(query, cfg, world);
        Routed(fb.value, [Sql, Rag, Fallback], sql.trace + rag.trace + fb.trace)
  }

  /** First success wins: the router returns the SQL agent's answer when there
      is one, else the RAG agent's, else the fallback's — and calls a later
      strategy only when every earlier one declined. */
  lemma FirstSuccessWins(query: string, cfg: Config, world: World)
    ensures var r := RouterAgent(query, cfg, world);
      var sql := SqlAgent(query, world);
      var rag := RagAgent(query, cfg, world);
      && (sql.value.Some? ==> r.answer == Returned(sql.value.value) && r.tried == [Sql] && r.trace == sql.trace)
      && (sql.value.None? && rag.value.Some? ==>
            r.answer == Returned(rag.value.value) && r.tried == [Sql, Rag] && r.trace == sql.trace + rag.trace)
      && (sql.value.None? && rag.value.None? ==>
            r.answer == LlmFallback(query, cfg, world).value && r.tried == Priority
            && r.trace == sql.trace + rag.trace + LlmFallback(query, cfg, world).trace)
  {
  }

  /** No strategy is tried twice: the strategy list repeats nothing, and the
      requests sent hold at most one database read, one embedding and one
      search. */
  lemma NoStrategyTwice(query: string, cfg: Config, world: World)
    ensures var t := RouterAgent(query, cfg, world).tried;
      forall i, j :: 0 <= i < j < |t| ==> t[i] != t[j]
    ensures var t := RouterAgent(query, cfg, world).trace;
      forall i, j :: 0 <= i < j < |t| ==>
        !(t[i].DbSelect? && t[j].DbSelect?) && !(t[i].Embedding? && t[j].Embedding?)
        && !(t[i].Search? && t[j].Search?)
  {
    TraceSlots(query, cfg, world);
  }

  /** Where each kind of request can sit in the router's trace: a database
      read only first, the embedding only right after the SQL agent's
      requests, and the search only right after the embedding. */
  lemma TraceSlots(query: string, cfg: Config, world: World)
    ensures var n := |SqlAgent(query, world).trace|;
      var t := RouterAgent(query, cfg, world).trace;
      forall i :: 0 <= i < |t| ==>
        && (t[i].DbSelect? ==> i == 0)
        && (t[i].Embedding? ==> i == n)
        && (t[i].Search? ==> i == n + 1)
  {
    var sql := SqlAgent(query, world);
    var rag := RagAgent(query, cfg, world);
    var fb := LlmFallback(query, cfg, world);
    var r := RouterAgent(query, cfg, world);
    var n := |sql.trace|;
    var ragPart := if |r.tried| >= 2 then rag.trace else [];
    var fbPart := if |r.tried| == 3 then fb.trace else [];
    assert r.trace == sql.trace + ragPart + fbPart;
    RagTraceShape(query, cfg, world);
    forall i | 0 <= i < |r.trace|
      ensures && (r.trace[i].DbSelect? ==> i == 0)
              && (r.trace[i].Embedding? ==> i == n)
              && (r.trace[i].Search? ==> i == n + 1)
    {
      if i < n {
        assert r.trace[i] == sql.trace[i];
      } else if i < n + |ragPart| {
        assert r.trace[i] == ragPart[i - n];
      } else {
        assert r.trace[i] == fbPart[i - n - |ragPart|];
      }
    }
  }

  /** The RAG agent's requests: the embedding first, the search second, and
      never a database read. */
  lemma RagTraceShape(query: string, cfg: Config, world: World)
    ensures var t := RagAgent(query, cfg, world).trace;
      forall i :: 0 <= i < |t| ==>
        && (t[i].Embedding? ==> i == 0)
        && (t[i].Search? ==> i == 1)
        && !t[i].DbSelect?
  {
  }

  /** The router never answers "nothing": it returns a record unless the
      fallback's own completion call raised, which is the one exception that
      escapes to the caller. */
  lemma NeverNone(query: string, cfg: Config, world: World)
    ensures RouterAgent(query, cfg, world).answer.Raised? <==>
      && SqlAgent(query, world).value.None?
      && RagAgent(query, cfg, world).value.None?
      && cfg.openai
      && world.complete(FallbackCompletion(cfg, query)).Raised?
  {
  }

  /** The source tag alone tells which strategy answered. */
  lemma SourceIdentifiesStrategy(query: string, cfg: Config, world: World)
    requires RouterAgent(query, cfg, world).answer.Returned?
    ensures var r := RouterAgent(query, cfg, world);
      var last := r.tried[|r.tried| - 1];
      && (r.answer.value.source == FromSql <==> last == Sql)
      && (r.answer.value.source == FromRag <==> last == Rag)
      && (r.answer.value.source in {FromLlm, FromSystem} <==> last == Fallback)
  {
  }

  /** Without an OpenAI key, no embedding or completion request is ever sent. */
  lemma NoModelCallsWithoutKey(query: string, cfg: Config, world: World)
    requires !cfg.openai
    ensures var t := RouterAgent(query, cfg, world).trace;
      forall i :: 0 <= i < |t| ==> t[i] == DbSelect
  {
  }

  /** The database is only consulted for a keyword query, and at most once. */
  lemma DbOnlyForStructuredQueries(query: string, cfg: Config, world: World)
    ensures var t := RouterAgent(query, cfg, world).trace;
      && (forall i :: 0 <= i < |t| && t[i] == DbSelect ==> i == 0)
      && (|t| > 0 && t[0] == DbSelect ==> IsStructuredCandidate(query) && world.dbFileExists)
  {
    ModelAgentsSkipDb(query, cfg, world);
  }

  /** Neither the RAG agent nor the fallback reads the database. */
  lemma ModelAgentsSkipDb(query: string, cfg: Config, world: World)
    ensures forall i :: 0 <= i < |RagAgent(query, cfg, world).trace| ==> RagAgent(query, cfg, world).trace[i] != DbSelect
    ensures forall i :: 0 <= i < |LlmFallback(query, cfg, world).trace| ==> LlmFallback(query, cfg, world).trace[i] != DbSelect
  {
  }

  // ---------------------------------------------------------------------
  // Scenarios
  // ---------------------------------------------------------------------

  /** A keyword query with the database present and returning rows is
      answered by the SQL agent. */
  lemma KeywordQueryWithRowsUsesSql(query: string, cfg: Config, world: World)
    requires IsStructuredCandidate(query)
    requires world.dbFileExists && world.dbRows.Returned? && |world.dbRows.value| > 0
    ensures RouterAgent(query, cfg, world).answer
         == Returned(AnswerResult(SqlAnswer(world.dbRows.value), FromSql))
  {
  }

  /** "berapa harga produk ini?" against a database holding the row
      ("P1", "99.9", "Jakarta") is answered by the SQL agent with a line
      naming the product, its price and its city. */
  lemma HargaScenario(query: string, cfg: Config, world: World)
    requires query == "berapa harga produk ini?"
    requires world.dbFileExists && world.dbRows == Returned([SqlRow("P1", "99.9", "Jakarta")])
    ensures var r := RouterAgent(query, cfg, world);
      && r.answer.Returned? && r.answer.value.source == FromSql
      && Split(r.answer.value.answer, '\n')
         == [SqlHeader, "- Produk P1 | Harga 99.9 | Kota seller Jakarta", ""]
  {
    HargaIsCandidate(query);
    KeywordQueryWithRowsUsesSql(query, cfg, world);
    var row := SqlRow("P1", "99.9", "Jakarta");
    HargaRow(row);
    OneRowAnswer(row);
  }

  lemma HargaIsCandidate(query: string)
    requires query == "berapa harga produk ini?"
    ensures IsStructuredCandidate(query)
  {
    assert OccursAt("harga", query, 7);
    KeywordInAnyCase(query, "harga", 0);
  }

  lemma HargaRow(row: SqlRow)
    requires row == SqlRow("P1", "99.9", "Jakarta")
    ensures SingleLineRow(row)
    ensures RowLine(row) == "- Produk P1 | Harga 99.9 | Kota seller Jakarta"
  {
    HargaRowLine(row);
  }

  lemma HargaRowLine(row: SqlRow)
    requires row == SqlRow("P1", "99.9", "Jakarta")
    ensures RowLine(row) == "- Produk P1 | Harga 99.9 | Kota seller Jakarta"
  {
  }

  lemma OneRowAnswer(row: SqlRow)
    requires SingleLineRow(row)
    ensures Split(SqlAnswer([row]), '\n') == [SqlHeader, RowLine(row), ""]
  {
    SqlAnswerLines([row]);
    assert RowLines([row]) == [RowLine(row)];
  }

  /** When the SQL agent declines and retrieval works end to end, the RAG
      agent answers, and its completion request is the last request sent. */
  lemma RetrievalWhenSqlDeclines(query: string, cfg: Config, world: World, vector: Vector, hits: seq<Hit>, reply: string)
    requires SqlAgent(query, world).value.None?
    requires cfg.qdrant && cfg.openai
    requires world.embed(Embedding(EmbeddingModel, query)) == Returned(vector)
    requires world.search(Search(CollectionName, vector, 3)) == Returned(hits)
    requires |hits| > 0 && ContextOf(hits).Some?
    requires world.complete(RagCompletion(cfg, RagPrompt(ContextOf(hits).value, query))) == Returned(reply)
    ensures var r := RouterAgent(query, cfg, world);
      && r.answer == Returned(AnswerResult(reply, FromRag))
      && |r.trace| > 0
      && r.trace[|r.trace| - 1] == RagCompletion(cfg, RagPrompt(ContextOf(hits).value, query))
  {
  }

  /** "apakah produk ini bagus?" has no keyword; with one retrieved document
      whose text is "Kategori: elektronik", the prompt sent to the model
      mentions "elektronik" and the answer is tagged as the RAG agent's. */
  lemma ElektronikScenario(query: string, cfg: Config, world: World, vector: Vector, p: Payload, reply: string)
    requires query == "apakah produk ini bagus?"
    requires cfg.qdrant && cfg.openai
    requires world.embed(Embedding(EmbeddingModel, query)) == Returned(vector)
    requires world.search(Search(CollectionName, vector, 3)) == Returned([Hit(Some(p))])
    requires |p| > 0 && TextField(p) == Str("Kategori: elektronik")
    requires world.complete(RagCompletion(cfg, RagPrompt("Kategori: elektronik", query))) == Returned(reply)
    ensures var r := RouterAgent(query, cfg, world);
      && r.answer == Returned(AnswerResult(reply, FromRag))
      && |r.trace| > 0
      && r.trace[|r.trace| - 1].ChatCompletion?
      && Occurs("elektronik", r.trace[|r.trace| - 1].messages[0].content)
  {
    NoKeywordIn(query);
    ContextOfSingleHit(p, "Kategori: elektronik");
    RetrievalWhenSqlDeclines(query, cfg, world, vector, [Hit(Some(p))], reply);
    ElektronikInPrompt(RagPrompt("Kategori: elektronik", query), query);
  }

  lemma ElektronikInPrompt(prompt: string, query: string)
    requires prompt == RagPrompt("Kategori: elektronik", query)
    ensures Occurs("elektronik", prompt)
  {
    OccursIn("Kategori: ", "elektronik", "");
    assert "Kategori: " + "elektronik" + "" == "Kategori: elektronik";
    OccursTrans("elektronik", "Kategori: elektronik", prompt);
  }

  /** None of the five keywords occurs in "apakah produk ini bagus?". */
  lemma NoKeywordIn(q: string)
    requires q == "apakah produk ini bagus?"
    ensures !IsStructuredCandidate(q)
  {
    QueryIsLower(q);
    NoHarga(q);
    NoOtherKeyword(q);
  }

  lemma QueryIsLower(q: string)
    requires q == "apakah produk ini bagus?"
    ensures Lower(q) == q
  {
  }

  /** "ha" never appears in the query, so "harga" cannot. */
  lemma NoHarga(q: string)
    requires q == "apakah produk ini bagus?"
    ensures !Occurs(Keywords[0], q)
  {
    assert forall i :: 0 <= i < |q| - 1 ==> !(q[i] == 'h' && q[i + 1] == 'a');
    MissingPairNotOccurs(Keywords[0], q, 0);
  }

  /** Each other keyword holds a letter the query lacks. */
  lemma NoOtherKeyword(q: string)
    requires q == "apakah produk ini bagus?"
    ensures forall j :: 1 <= j < |Keywords| ==> !Occurs(Keywords[j], q)
  {
    MissingCharNotOccurs(Keywords[1], q, 3);
    MissingCharNotOccurs(Keywords[2], q, 2);
    MissingCharNotOccurs(Keywords[3], q, 2);
    MissingCharNotOccurs(Keywords[4], q, 0);
  }

  /** With no collaborator configured at all, every query — the empty one
      included — gets the fixed unavailability message from `System`. */
  lemma NothingConfigured(query: string, cfg: Config, world: World)
    requires !cfg.openai && !world.dbFileExists
    ensures RouterAgent(query, cfg, world).answer
         == Returned(AnswerResult(Unavailable, FromSystem))
  {
  }
}

=== FILE: text.dfy ===
/** String operations the Python code relies on: `str.lower`, the `in`
    substring test, `str.join`, slicing with `[:n]`, and splitting a text
    back into lines (the inverse used to state what a built text contains). */
module Text {

  /** Lower-cases an ASCII capital; every other character is unchanged. */
  function LowerChar(c: char): char {
    if 'A' <= c <= 'Z' then (c as int + 32) as char else c
  }

  /** `s.lower()`, restricted to ASCII letters. */
  function Lower(s: string): (r: string)
    ensures |r| == |s|
    ensures forall i :: 0 <= i < |s| ==> r[i] == LowerChar(s[i])
  {
    seq(|s|, i requires 0 <= i < |s| => LowerChar(s[i]))
  }

  lemma LowerIdempotent(s: string)
    ensures Lower(Lower(s)) == Lower(s)
  {
  }

  /** Lower-casing commutes with taking a slice. */
  lemma LowerSlice(s: string, i: nat, j: nat)
    requires i <= j <= |s|
    ensures Lower(s)[i..j] == Lower(s[i..j])
  {
  }

  /** `k` sits in `s` starting at position `i`. */
  ghost predicate OccursAt(k: string, s: string, i: int) {
    0 <= i <= |s| - |k| && s[i..i + |k|] == k
  }

  /** `k in s` for strings: `k` occurs as a contiguous piece of `s`. */
  ghost predicate Occurs(k: string, s: string) {
    exists i :: OccursAt(k, s, i)
  }

  /** The executable substring test, scanning start positions left to right. */
  function Contains(s: string, k: string): (r: bool)
    ensures r <==> Occurs(k, s)
    decreases |s|
  {
    if |k| <= |s| && s[..|k|] == k then
      assert OccursAt(k, s, 0);
      true
    else if |s| == 0 then
      false
    else
      var r := Contains(s[1..], k);
      assert r ==> Occurs(k, s) by {
        if r {
          var i :| OccursAt(k, s[1..], i);
          assert s[i + 1..i + 1 + |k|] == s[1..][i..i + |k|];
          assert OccursAt(k, s, i + 1);
        }
      }
      assert Occurs(k, s) ==> r by {
        if Occurs(k, s) {
          var i :| OccursAt(k, s, i);
          if i == 0 {
            assert false;
          }
          assert s[1..][i - 1..i - 1 + |k|] == s[i..i + |k|];
          assert OccursAt(k, s[1..], i - 1);
        }
      }
      r
  }

  /** Any piece of a slice of `s` is a piece of `s`. */
  lemma OccursTrans(k: string, m: string, s: string)
    requires Occurs(k, m) && Occurs(m, s)
    ensures Occurs(k, s)
  {
    var i :| OccursAt(k, m, i);
    var j :| OccursAt(m, s, j);
    assert i + |k| <= |m|;
    assert s[j + i..j + i + |k|] == k by {
      forall t | 0 <= t < |k|
        ensures s[j + i..j + i + |k|][t] == k[t]
      {
        assert k[t] == m[i + t] == s[j + i + t];
      }
    }
    assert OccursAt(k, s, j + i);
  }

  /** A string occurs in any concatenation that has it as the middle part. */
  lemma OccursIn(a: string, k: string, b: string)
    ensures Occurs(k, a + k + b)
  {
    assert (a + k + b)[|a|..|a| + |k|] == k;
    assert OccursAt(k, a + k + b, |a|);
  }

  /** A piece holding a character the text lacks does not occur in it. */
  lemma MissingCharNotOccurs(k: string, s: string, j: nat)
    requires j < |k| && k[j] !in s
    ensures !Occurs(k, s)
  {
    forall i | 0 <= i <= |s| - |k|
      ensures !OccursAt(k, s, i)
    {
      assert s[i..i + |k|][j] == s[i + j];
    }
  }

  /** A piece holding two adjacent characters that are never adjacent in the
      text does not occur in it. */
  lemma MissingPairNotOccurs(k: string, s: string, j: nat)
    requires j + 1 < |k|
    requires forall i :: 0 <= i < |s| - 1 ==> !(s[i] == k[j] && s[i + 1] == k[j + 1])
    ensures !Occurs(k, s)
  {
    forall i | 0 <= i <= |s| - |k|
      ensures !OccursAt(k, s, i)
    {
      assert s[i..i + |k|][j] == s[i + j];
      assert s[i..i + |k|][j + 1] == s[i + j + 1];
    }
  }

  /** `sep.join(parts)`. */
  function Join(sep: string, parts: seq<string>): string {
    if |parts| == 0 then ""
    else if |parts| == 1 then parts[0]
    else parts[0] + sep + Join(sep, parts[1..])
  }

  /** Every joined part is a piece of the joined text. */
  lemma {:induction false} JoinContainsPart(sep: string, parts: seq<string>, i: nat)
    requires i < |parts|
    ensures Occurs(parts[i], Join(sep, parts))
  {
    if |parts| == 1 {
      OccursIn("", parts[0], "");
      assert "" + parts[0] + "" == parts[0];
    } else if i == 0 {
      OccursIn("", parts[0], sep + Join(sep, parts[1..]));
      assert "" + parts[0] + (sep + Join(sep, parts[1..])) == Join(sep, parts);
    } else {
      JoinContainsPart(sep, parts[1..], i - 1);
      var rest := Join(sep, parts[1..]);
      OccursIn(parts[0] + sep, rest, "");
      assert parts[0] + sep + rest + "" == Join(sep, parts);
      OccursTrans(parts[i], rest, Join(sep, parts));
    }
  }

  /** Each line followed by a newline-like terminator `c`, concatenated:
      the shape of a text built by appending `line + "\n"` repeatedly. */
  function Terminated(lines: seq<string>, c: char): string {
    if |lines| == 0 then "" else lines[0] + [c] + Terminated(lines[1..], c)
  }

  /** Appending one more line appends it and its terminator to the text. */
  lemma {:induction false} TerminatedSnoc(lines: seq<string>, last: string, c: char)
    ensures Terminated(lines + [last], c) == Terminated(lines, c) + last + [c]
  {
    if |lines| == 0 {
      assert lines + [last] == [last];
    } else {
      TerminatedSnoc(lines[1..], last, c);
      assert (lines + [last])[1..] == lines[1..] + [last];
    }
  }

  /** `s.split(c)` for a single-character separator. */
  function Split(s: string, c: char): (r: seq<string>)
    ensures |r| >= 1
    decreases |s|
  {
    if |s| == 0 then [""]
    else
      var rest := Split(s[1..], c);
      if s[0] == c then [""] + rest
      else [[s[0]] + rest[0]] + rest[1..]
  }

  /** Splitting stops at the first separator. */
  lemma {:induction false} SplitCons(p: string, t: string, c: char)
    requires c !in p
    ensures Split(p + [c] + t, c) == [p] + Split(t, c)
  {
    var s := p + [c] + t;
    if |p| == 0 {
      assert s[1..] == t;
    } else {
      assert s[1..] == p[1..] + [c] + t;
      SplitCons(p[1..], t, c);
      assert [p[0]] + p[1..] == p;
    }
  }

  /** Splitting a text of terminated lines gives the lines back, followed by
      the empty piece after the last terminator. */
  lemma {:induction false} SplitTerminated(lines: seq<string>, c: char)
    requires forall i :: 0 <= i < |lines| ==> c !in lines[i]
    ensures Split(Terminated(lines, c), c) == lines + [""]
  {
    if |lines| > 0 {
      SplitTerminated(lines[1..], c);
      SplitCons(lines[0], Terminated(lines[1..], c), c);
      assert [lines[0]] + (lines[1..] + [""]) == lines + [""];
    }
  }

  /** Joining the pieces of a split restores the text. */
  lemma {:induction false} JoinSplit(s: string, c: char)
    ensures Join([c], Split(s, c)) == s
  {
    if |s| > 0 {
      JoinSplit(s[1..], c);
      var rest := Split(s[1..], c);
      if s[0] == c {
        assert ([""] + rest)[1..] == rest;
        assert [s[0]] + s[1..] == s;
      } else if |rest| == 1 {
        assert [s[0]] + s[1..] == s;
      } else {
        var r := [[s[0]] + rest[0]] + rest[1..];
        assert r[1..] == rest[1..];
        assert [s[0]] + s[1..] == s;
      }
    }
  }

  /** A joined text that ends with an empty piece is a text of terminated lines. */
  lemma {:induction false} JoinEmptyLast(lines: seq<string>, c: char)
    ensures Join([c], lines + [""]) == Terminated(lines, c)
  {
    if |lines| > 0 {
      JoinEmptyLast(lines[1..], c);
      assert (lines + [""])[1..] == lines[1..] + [""];
    }
  }

  /** `s[:n]`: the first `n` characters, or all of `s` when it is shorter. */
  function Truncate(s: string, n: nat): (r: string)
    ensures r <= s
    ensures |r| <= n
    ensures |s| <= n ==> r == s
    ensures |s| > n ==> |r| == n
  {
    if |s| <= n then s else s[..n]
  }
}

=== FILE: wrappers.dfy ===
/** Failure-carrying datatypes shared by the whole model. */
module Wrappers {

  /** Python's `None` versus a present value. */
  datatype Option<+T> = None | Some(value: T) {

    /** The present value, or `default` when absent (pandas `fillna`, `dict.get`). */
    function GetOr(default: T): T {
      match this
      case Some(v) => v
      case None => default
    }
  }

  /** The outcome of a call into a collaborator that may raise an exception. */
  datatype Outcome<+T> = Returned(value: T) | Raised
}
